=== FILE: README.md ===
# duim: a Dafny model of the disk-usage report core

`duim.py` runs `du -d 1` on a target directory and prints one line per
subdirectory: its percentage of the target's total, an ASCII bar of `=` and
spaces, and its size. It ends with a `Total:` line. This project models the
deterministic logic between `du`'s output and that report, and proves
properties about it:

- `Bar` models `percent_to_graph`. It rejects a percentage outside [0, 100].
  Otherwise it returns `round(percent / 100 * width)` `=` characters followed
  by spaces. `round` is Python's round-half-to-even over exact rationals.
- `Tokens` and `Numbers` model what `create_dir_dict` applies to each line.
  `Tokens` models `str.split()` over Python's whitespace characters.
  `Numbers` models the base-10 `int()` syntax: an optional sign, then digits,
  with single underscores allowed between digits, and at most 4300 digits.
  `Numbers` also models the integer rendering `f"{size}"`, which `int()`
  reads back.
- `DuTable` models `create_dir_dict`. The dict is an association list in
  insertion order with unique paths. Assigning to an existing key keeps its
  position and replaces its value, so paths appear in the order of their
  first valid line. Lines that do not parse are skipped.
- `Units` models the unit choice of `human_readable` (B, K, M, G, T, then P).
- `Report` models the main block from line 86 to line 103:
  1. The total is the size of the first entry whose normalised path equals
     the normalised target.
  2. The children are the other entries, stably sorted by size, largest
     first.
  3. Each child's percentage and bar are computed.

  The model reports a fatal condition as an `Outcome`. An `Outcome` carries
  the rows printed before the fault.
- `Arith` holds one fact about real multiplication that `Bar` and `Report`
  both use.
- `ReportExamples` proves worked scenarios: a table holding the target, then
  a smaller child, then a larger child, with paths compared as written and
  both children in range; a concrete three-entry table; and a run from `du`
  lines to the printed rows.

`os.path.abspath(p).rstrip('/')` depends on the working directory. It is a
parameter `norm: string -> string` that is applied to the target and to every
path. Floats are modelled as exact `real` values.

## Model

| member | source | states |
|---|---|---|
| Bar.PercentToGraph | duim.py:31-36 | A percentage below 0 or above 100 is rejected, and no other is. A valid percentage with `width >= 0` gives exactly `width` characters: `Filled` `=` then spaces, with `0 <= Filled <= width`. Percentage 0 gives only spaces and 100 gives only `=`. A negative width gives the empty bar |
| Bar.RoundHalfEven | duim.py:35 | `round`: the result is within 1/2 of the argument, and on a tie it is even |
| Bar.RoundHalfEvenUnique | duim.py:35 | Any integer within 1/2 of `x` that is even on a tie equals `RoundHalfEven(x)`, so the contract above determines the result completely |
| Bar.Repeat | duim.py:36 | `c * n` has `max(n, 0)` characters, all equal to `c` |
| Bar.FilledInRange | duim.py:35 | For a valid percentage the fill count lies in [0, width] (in [width, 0] for a negative width). It is 0 at 0% and `width` at 100% |
| Bar.BarRoundTrip | duim.py:35-36 | Count the `=` characters of a bar and divide by the width: the result is within 50/width percentage points of the original percentage |
| Bar.BarMonotone | duim.py:35-36 | A larger valid percentage never gets fewer `=` characters |
| Tokens.Split | duim.py:60 | Every token of `line.split()` is non-empty and contains no whitespace |
| Tokens.SplitJoin | duim.py:60 | Splitting whitespace-free tokens joined by any whitespace character gives the tokens back |
| Tokens.SplitSpaced | duim.py:60 | Any run of whitespace separates two tokens like a single character, and whitespace before the first or after the last token yields no token: words separated by non-empty whitespace runs, with optional whitespace around them, split into exactly those words. Every line has this shape, so this fixes the result for every line |
| Tokens.SplitKeepsNonSpace | duim.py:60 | The tokens laid end to end are the line with its whitespace removed: splitting drops no other character and reorders nothing |
| Numbers.ParseInt | duim.py:63 | `int(token)` succeeds exactly on an optional sign followed by a digit group with at most 4300 digits (underscores and sign not counted). The value is non-positive after `-` and non-negative otherwise; the three lemmas below fix it for every accepted token |
| Numbers.ParseDigits | duim.py:63 | A plain run of ASCII digits reads as its decimal value when it has at most 4300 digits, and raises `ValueError` when it has more |
| Numbers.ParseSigned | duim.py:63 | A leading `+` leaves the value of a digit group unchanged and a leading `-` negates it; neither changes whether `int()` accepts it |
| Numbers.ParseUnderscores | duim.py:63 | A digit group with underscores reads exactly as its digits without them, value and digit limit alike |
| Numbers.FormatInt | duim.py:104 | `f"{size}"` is a whitespace-free literal in `int()` syntax. It starts with `-` exactly when the size is negative, and the rest is plain digits without a leading zero (unless the number is 0) |
| Numbers.ParseFormat | duim.py:63 | `int()` reads back every rendered integer of at most 4300 digits: `ParseInt(FormatInt(n)) == Some(n)` |
| DuTable.Put | duim.py:63 | `d[k] = v` keeps paths unique. An existing key keeps its place. A new key goes last. Every other entry is one of the old entries |
| DuTable.PutLookup | duim.py:63 | After `d[k] = v`, looking up `k` gives `v` and every other key looks up as before |
| DuTable.ParseLine | duim.py:60-65 | A line is kept exactly when it has at least two tokens and `int()` accepts the first one (syntax and digit limit). The kept entry has the second token as path and `int()` of the first token as size |
| DuTable.ParseLineOfFormatted | duim.py:60-63 | A line made of a rendered size of at most 4300 digits, a path and any further tokens, joined by one whitespace character, is read as (path, size). Tokens after the second are ignored |
| DuTable.ParseLineSpaced | duim.py:60-63 | The same for any whitespace: leading whitespace, runs of whitespace between the tokens and trailing whitespace, as in `"  4096   /a  "`, give (path, size) |
| DuTable.DirDict | duim.py:56-66 | `create_dir_dict` returns a table whose paths are unique |
| DuTable.DirDictLookup | duim.py:59-63 | Path `k` maps to `v` exactly when some line reads (k, v) and no later valid line sets `k`. The last line for a path wins |
| DuTable.DirDictKeys | duim.py:59-63 | A path is a key exactly when some valid line has it as its second token |
| DuTable.DirDictOrder | duim.py:58-63 | Two paths of the table appear in the order of their first valid lines: `a` comes before `b` exactly when `a`'s first valid line comes before `b`'s. A later line for a known path changes its size, not its place. This is the order the lookup of lines 89-92 and the comprehension of line 98 walk |
| DuTable.DirDictSkipsBadLine | duim.py:61-65 | Removing a line that does not parse leaves the table unchanged. No bad line raises or disturbs the lines after it |
| DuTable.DirDictExample | duim.py:56-66 | `["bad line", "4096\t/a", "8192\t/b"]` gives `{"/a": 4096, "/b": 8192}` |
| Units.HumanReadable | duim.py:68-74 | The unit is B exactly when size < 1024. It is the first unit k of B..T with size < 1024^(k+1), or P when there is none. The value shown is size / 1024^k. It is below 1024 for every unit except P, at least 1 for P, and non-negative for a non-negative size |
| Report.FindTotal | duim.py:86-92 | There is no total exactly when no entry's normalised path equals the normalised target. Otherwise the total is the size of the first such entry in insertion order |
| Report.Children | duim.py:98 | An entry is a child exactly when it is in the table and its normalised path differs from the normalised target. Each child occurs as often as in the table. A one-entry table gives itself, or nothing when the entry is the target |
| Report.ChildrenAppend | duim.py:98 | The comprehension keeps table order: the children of a table split in two parts are the children of the first part followed by those of the second. With the one-entry case of `Report.Children` this fixes the result for every table |
| Report.InsertDesc | duim.py:99 | Inserting into a list sorted largest first keeps it sorted and adds exactly the new entry |
| Report.SortBySize | duim.py:99 | The sorted list is a permutation of the input, ordered by size from largest to smallest |
| Report.SortBySizeStable | duim.py:99 | Entries of equal size keep their input order (`list.sort` is stable, also with `reverse=True`) |
| Report.Sorted | duim.py:98-99 | The child list is ordered by size, largest first. Each non-target entry occurs in it as often as in the table, and no target entry occurs |
| Report.SortedStable | duim.py:98-99 | Children of equal size are listed in table order: the sorted children of size `v` are the table's entries of size `v`, target left out, in insertion order |
| Report.Percent | duim.py:102 | `(size / total_size) * 100` is the number that, multiplied by the total, gives 100 times the size |
| Report.PercentInRange | duim.py:102-103 | With a positive total, `size / total * 100` is in [0, 100] exactly when 0 <= size <= total |
| Report.PercentMonotone | duim.py:102 | With a positive total, a larger size never gets a smaller percentage |
| Report.RenderRows | duim.py:101-103 | The loop finishes exactly when every child's percentage is in [0, 100]. Otherwise it stops at the first child whose percentage is out of range, after printing the rows before it. Each printed row carries its child's path, size, percentage and bar |
| Report.BuildReport | duim.py:86-103 | The run aborts with no total exactly when no entry matches the target. It raises a division by zero exactly when the total is 0 and there is a child. It stops in `percent_to_graph` exactly when the total is non-zero and some child's percentage is outside [0, 100] (under a positive total, a negative child or one above the total; under a negative total, a positive child or one below the total). It completes exactly when there is a total and either no child, or a non-zero total with every child in range; then it ends with the matched total and one row per child. With a non-zero total, the printed rows are those of the first sorted children, and on a `percent_to_graph` fault the next sorted child is the one out of range. The other faults print no row |
| Report.ReportCompletes | duim.py:98-103 | With a positive total and every child between 0 and the total, the run completes with one row per child. The rows are in descending size and each bar is exactly `width` long |
| Report.OversizedChildAbortsFirst | duim.py:99-103 | With a positive total, a child larger than the total sorts first, so the bar call raises before any row is printed |
| Report.BarsNonIncreasing | duim.py:99-103 | With a positive total, no printed bar has more `=` than the bar printed before it |
| Report.DuReport | duim.py:85-103 | From the `du` lines, a completed run prints as total the size given by a valid line whose path normalises to the target, where no later valid line sets that path again |
| Report.DuReportNoTotal | duim.py:86-96 | Starting from the `du` lines, the run ends with "could not determine total size" exactly when no valid line's path normalises to the target |
| ReportExamples.ThreeEntryReport | duim.py:86-103 | For a table holding the target, then the smaller child, then the larger child, with paths compared as written (no normalisation) and `0 <= smaller < larger <= total`, the run completes with the target's size as total, the larger child's row first and the smaller child's row second, each with its own percentage |
| ReportExamples.TableExample | duim.py:86-102 | For `{"/x": 100, "/x/a": 30, "/x/b": 70}` with target `/x`, the rows are `/x/b` at 70% followed by `/x/a` at 30%, and the total is 100 |
| ReportExamples.EndToEndExample | duim.py:59-103 | The tab-separated `du` lines `300 /root`, `100 /root/a`, `200 /root/b` with target `/root` and width 10 give `/root/b` (200/3 %, `=======   `) then `/root/a` (100/3 %, `===       `), with total 300 |

## Behaviour of `duim.py` the model keeps

- Sizes may be negative. `int()` accepts a sign, and nothing in `duim.py`
  rejects a negative size. Under a positive total a negative child makes
  `percent_to_graph` raise; under a negative total a positive child does.
- `create_dir_dict` keys the dict by the literal path token. It does not
  normalise. Normalisation happens only when the total and the children are
  looked up, so two spellings of one directory are two keys.
- Dict order matters. The total comes from the first matching entry in
  insertion order, and a path's place is fixed by its first valid line.
- A zero total is not guarded. Python raises `ZeroDivisionError` at the first
  child. With no children there is no division, and the run completes. The
  model has `ZeroDivision` only when there is a child.
- Equal sizes keep their dict order, because Python's sort is stable.
- `round` is round-half-to-even.
- A percentage out of range raises inside the printing loop. The rows before
  that child are already printed, so `Aborted` carries them.

## Left out

- `parse_command_args` (lines 17-29): argparse, a foreign library. The bar width and the target are parameters.
- `call_du_sub` (lines 38-54) and both `os.path.isdir` checks: they spawn a process and read the filesystem. The model starts from the list of `du` lines. On failure `call_du_sub` returns an empty list, which `Report.DuReportNoTotal` covers.
- `os.path.abspath(...).rstrip('/')`: it depends on the working directory. It is the parameter `norm`.
- Float text formatting (`f"{size:.1f}"`, `f"{percent:4.0f}"`, `>10`, lines 72, 74, 104-105 and 107-108): this is float rendering, including the `1024.0 K` boundary output. `Units.HumanReadable` returns the exact quotient and the unit, not the text.
- `print` and `sys.exit` (lines 80-82, 94-96, 105, 108): the printed lines are `Row`s and the final `Outcome`, and a fatal condition is a `Fault`.
- Units.HumanReadable: the quotient is exact, while Python's repeated float division can round for sizes beyond 2^53. Line 73 also raises `OverflowError` when `size / 1024` exceeds the float range (a size above about 1.8 * 10^311); the model divides any size.
- Bar.PercentToGraph: the percentage and the fill count are exact rationals. Python computes them in floating point, which can round a value next to a .5 tie differently.
- Numbers.ParseInt: Unicode decimal digits other than ASCII `0`-`9` are not accepted. Python's `int()` accepts them. The 4300-digit limit is CPython's default; it can be changed with `-X int_max_str_digits` or `PYTHONINTMAXSTRDIGITS`, and interpreters released before the limit was introduced (in 3.11 and in the 3.10.7, 3.9.14, 3.8.14 and 3.7.14 security releases) have none.
- Numbers.FormatInt: CPython also refuses to render an integer of more than 4300 digits as text (`ValueError`). The model renders every integer. Every size that reaches line 104 came from `int()` and so has at most 4300 digits.
- Tokens.Split: the whitespace set is the one of Python's `str.isspace()`. `call_du_sub`'s stripping of each line is left out, because splitting ignores leading and trailing whitespace anyway (`Tokens.SplitSpaced`).
- Report.PercentInRange: line 102 computes `size / total_size * 100` in floating point, and the model uses exact rationals. The two can disagree at the range edges. With a total of 2^53 and a child of 2^53 + 1, the quotient 1 + 2^-53 is a tie that rounds to 1.0, so Python draws a full bar where the model aborts with `PercentOutOfRange`. A quotient beyond the float range (a child of 10^400 bytes under a total of 1) raises `OverflowError` in Python, not `ValueError`; the model reports `PercentOutOfRange`.
- Report.OversizedChildAbortsFirst: it holds for exact percentages. Under the float effects named for `Report.PercentInRange`, a child just above the total can get exactly 100% in Python and print a full bar.

=== FILE: arith.dfy ===
/** Facts about real arithmetic that the solver does not find by itself,
    shared by the bar and the percentage computations. */
module Arith {

  /** A product of two non-negative reals is non-negative. */
  lemma MulNonneg(a: real, b: real)
    requires a >= 0.0 && b >= 0.0
    ensures a * b >= 0.0
  {
  }
}

=== FILE: bar.dfy ===
/** `percent_to_graph`: a percentage drawn as a fixed-width bar of `=`
    followed by spaces. Percentages are exact rationals (`real`). */
module Bar {
  import opened Wrappers
  import Arith

  /** Raised as `ValueError` when the percentage is outside [0, 100]. */
  datatype BarError = PercentOutOfRange

  /** Python's `round`: nearest integer, ties to the even neighbour. */
  function RoundHalfEven(x: real): (r: int)
    ensures x - 0.5 <= r as real <= x + 0.5
    ensures (r as real - x == 0.5 || x - r as real == 0.5) ==> r % 2 == 0
  {
    var f := x.Floor;
    var frac := x - f as real;
    if frac < 0.5 then f
    else if frac > 0.5 then f + 1
    else if f % 2 == 0 then f
    else f + 1
  }

  /** The two properties of `RoundHalfEven` single out its result. */
  lemma RoundHalfEvenUnique(x: real, n: int)
    requires x - 0.5 <= n as real <= x + 0.5
    requires (n as real - x == 0.5 || x - n as real == 0.5) ==> n % 2 == 0
    ensures n == RoundHalfEven(x)
  {
  }

  /** Rounding never reverses the order of two values. */
  lemma RoundHalfEvenMonotone(x: real, y: real)
    requires x <= y
    ensures RoundHalfEven(x) <= RoundHalfEven(y)
  {
  }

  /** `c * n` in Python: `n` copies of `c`, and nothing when `n <= 0`. */
  function Repeat(c: char, n: int): (s: string)
    ensures |s| == if n > 0 then n else 0
    ensures forall i :: 0 <= i < |s| ==> s[i] == c
    decreases if n > 0 then n else 0
  {
    if n <= 0 then "" else [c] + Repeat(c, n - 1)
  }

  /** `percent / 100 * width`, the bar length before rounding. */
  function Scaled(percent: real, width: int): real {
    percent / 100.0 * width as real
  }

  /** The number of `=` the bar holds: `round(percent / 100 * width)`. */
  function Filled(percent: real, width: int): int {
    RoundHalfEven(Scaled(percent, width))
  }

  /** The scaled value `percent / 100 * width` lies between 0 and `width`. */
  lemma ScaleBounds(percent: real, width: int)
    requires 0.0 <= percent <= 100.0
    ensures width >= 0 ==> 0.0 <= Scaled(percent, width) <= width as real
    ensures width < 0 ==> width as real <= Scaled(percent, width) <= 0.0
    ensures percent == 0.0 ==> Scaled(percent, width) == 0.0
    ensures percent == 100.0 ==> Scaled(percent, width) == width as real
  {
    var a := percent / 100.0;
    var w := width as real;
    assert 0.0 <= a <= 1.0;
    if width >= 0 {
      Arith.MulNonneg(a, w);
      Arith.MulNonneg(1.0 - a, w);
      assert (1.0 - a) * w == w - a * w;
    } else {
      Arith.MulNonneg(a, -w);
      assert a * (-w) == -(a * w);
      Arith.MulNonneg(1.0 - a, -w);
      assert (1.0 - a) * (-w) == a * w - w;
    }
  }

  /** A value between two integers rounds to an integer between them. */
  lemma RoundHalfEvenBetween(x: real, lo: int, hi: int)
    requires lo as real <= x <= hi as real
    ensures lo <= RoundHalfEven(x) <= hi
  {
  }

  lemma FilledInRange(percent: real, width: int)
    requires 0.0 <= percent <= 100.0
    ensures width >= 0 ==> 0 <= Filled(percent, width) <= width
    ensures width < 0 ==> width <= Filled(percent, width) <= 0
    ensures percent == 0.0 ==> Filled(percent, width) == 0
    ensures percent == 100.0 ==> Filled(percent, width) == width
  {
    ScaleBounds(percent, width);
    var x := Scaled(percent, width);
    if width >= 0 {
      assert 0.0 <= x <= width as real;
      RoundHalfEvenBetween(x, 0, width);
    } else {
      assert width as real <= x <= 0.0;
      RoundHalfEvenBetween(x, width, 0);
    }
    if percent == 0.0 {
      assert x == 0.0;
      RoundHalfEvenBetween(x, 0, 0);
    }
    if percent == 100.0 {
      assert x == width as real;
      RoundHalfEvenBetween(x, width, width);
    }
  }

  /** `percent_to_graph(percent, width)`. */
  function PercentToGraph(percent: real, width: int): (r: Result<string, BarError>)
    ensures r.Err? <==> percent < 0.0 || percent > 100.0
    ensures r.Ok? && width >= 0 ==>
      var f := Filled(percent, width);
      && 0 <= f <= width
      && |r.value| == width
      && (forall i :: 0 <= i < f ==> r.value[i] == '=')
      && (forall i :: f <= i < width ==> r.value[i] == ' ')
    ensures r.Ok? && width < 0 ==> r.value == ""
    ensures r.Ok? && percent == 0.0 ==> forall i :: 0 <= i < |r.value| ==> r.value[i] == ' '
    ensures r.Ok? && percent == 100.0 ==> forall i :: 0 <= i < |r.value| ==> r.value[i] == '='
  {
    if percent < 0.0 || percent > 100.0 then Err(PercentOutOfRange)
    else
      FilledInRange(percent, width);
      var f := Filled(percent, width);
      Ok(Repeat('=', f) + Repeat(' ', width - f))
  }

  /** How many times `c` occurs in `s`. */
  function Count(c: char, s: string): nat {
    if s == [] then 0 else (if s[0] == c then 1 else 0) + Count(c, s[1..])
  }

  lemma {:induction false} CountPrefixSuffix(s: string, n: nat, c: char)
    requires n <= |s|
    requires forall i :: 0 <= i < n ==> s[i] == c
    requires forall i :: n <= i < |s| ==> s[i] != c
    ensures Count(c, s) == n
    decreases |s|
  {
    if s != [] {
      if n > 0 {
        CountPrefixSuffix(s[1..], n - 1, c);
      } else {
        CountPrefixSuffix(s[1..], 0, c);
      }
    }
  }

  /** The bar of a valid percentage holds exactly `Filled` `=` characters. */
  lemma BarCount(percent: real, width: int)
    requires 0.0 <= percent <= 100.0
    ensures PercentToGraph(percent, width).Ok?
    ensures Count('=', PercentToGraph(percent, width).value) == if width >= 0 then Filled(percent, width) else 0
  {
    var bar := PercentToGraph(percent, width).value;
    if width >= 0 {
      CountPrefixSuffix(bar, Filled(percent, width), '=');
    } else {
      CountPrefixSuffix(bar, 0, '=');
    }
  }

  /** Reading the percentage back from a bar, as `=` count over width,
      misses the original by at most half a character. */
  lemma BarRoundTrip(percent: real, width: int)
    requires 0.0 <= percent <= 100.0
    requires width > 0
    ensures PercentToGraph(percent, width).Ok?
    ensures var filled := Count('=', PercentToGraph(percent, width).value);
      -50.0 <= filled as real * 100.0 - percent * width as real <= 50.0
  {
    BarCount(percent, width);
    var x := Scaled(percent, width);
    assert x * 100.0 == percent * width as real;
  }

  lemma ScaleMonotone(p: real, q: real, width: int)
    requires p <= q
    requires width >= 0
    ensures Scaled(p, width) <= Scaled(q, width)
  {
    var w := width as real;
    Arith.MulNonneg(q / 100.0 - p / 100.0, w);
    assert (q / 100.0 - p / 100.0) * w == q / 100.0 * w - p / 100.0 * w;
  }

  lemma FilledMonotone(p: real, q: real, width: int)
    requires p <= q
    requires width >= 0
    ensures Filled(p, width) <= Filled(q, width)
  {
    ScaleMonotone(p, q, width);
    RoundHalfEvenMonotone(Scaled(p, width), Scaled(q, width));
  }

  /** A larger percentage never draws a shorter bar. */
  lemma BarMonotone(p: real, q: real, width: int)
    requires 0.0 <= p <= q <= 100.0
    ensures Count('=', PercentToGraph(p, width).value) <= Count('=', PercentToGraph(q, width).value)
  {
    BarCount(p, width);
    BarCount(q, width);
    if width >= 0 {
      FilledMonotone(p, q, width);
    }
  }
}

=== FILE: dutable.dfy ===
/** `create_dir_dict`: `du` output lines read into a path -> size table.
    The table is a Python dict, so it is modelled as an association list in
    insertion order with unique paths. */
module DuTable {
  import opened Wrappers
  import Tokens
  import Numbers

  datatype Entry = Entry(path: string, size: int)

  /** A dict's items, in insertion order. */
  type Table = seq<Entry>

  predicate UniquePaths(d: Table) {
    forall i, j :: 0 <= i < j < |d| ==> d[i].path != d[j].path
  }

  predicate HasPath(d: Table, k: string) {
    exists i :: 0 <= i < |d| && d[i].path == k
  }

  /** Where `k` sits in the table, if anywhere. */
  function Find(d: Table, k: string): (r: Option<nat>)
    ensures r.None? <==> !HasPath(d, k)
    ensures r.Some? ==> r.value < |d| && d[r.value].path == k
    ensures r.Some? ==> forall j :: 0 <= j < r.value ==> d[j].path != k
  {
    if d == [] then None
    else if d[0].path == k then Some(0)
    else
      match Find(d[1..], k)
      case None => 
        assert forall i :: 1 <= i < |d| ==> d[i] == d[1..][i - 1];
        None
      case Some(i) => Some(i + 1)
  }

  /** `d.get(k)`. */
  function Lookup(d: Table, k: string): (r: Option<int>)
    ensures r.None? <==> !HasPath(d, k)
    ensures r.Some? ==> exists i :: 0 <= i < |d| && d[i] == Entry(k, r.value)
  {
    match Find(d, k)
    case None => None
    case Some(i) => Some(d[i].size)
  }

  /** `d[k] = v`: an existing key keeps its position and takes the new value,
      a new key goes last. */
  function Put(d: Table, k: string, v: int): (r: Table)
    ensures UniquePaths(d) ==> UniquePaths(r)
    ensures HasPath(d, k) ==> |r| == |d| && forall i :: 0 <= i < |d| ==> r[i].path == d[i].path
    ensures !HasPath(d, k) ==> r == d + [Entry(k, v)]
    ensures forall i :: 0 <= i < |r| && r[i].path != k ==> r[i] in d
  {
    match Find(d, k)
    case None => d + [Entry(k, v)]
    case Some(i) => d[i := Entry(k, v)]
  }

  /** After `d[k] = v`, `k` maps to `v` and every other key is unchanged. */
  lemma PutLookup(d: Table, k: string, v: int, k': string)
    requires UniquePaths(d)
    ensures Lookup(Put(d, k, v), k') == if k' == k then Some(v) else Lookup(d, k')
  {
    var r := Put(d, k, v);
    if k' == k {
      var at := match Find(d, k) case None => |d| case Some(i) => i;
      assert r[at] == Entry(k, v);
      assert HasPath(r, k);
      var i := Find(r, k).value;
      assert r[i].path == k;
      assert UniquePaths(r);
      assert i == at;
    } else {
      match Find(d, k')
      case None =>
        assert !HasPath(r, k');
      case Some(i) =>
        assert r[i] == d[i];
    }
  }

  /** One line of `du` output: split on whitespace; a line with at least two
      tokens whose first token is an integer gives (second token, that
      integer); any other line is skipped. */
  function ParseLine(line: string): (r: Option<Entry>)
    ensures r.Some? <==>
      var parts := Tokens.Split(line);
      |parts| >= 2 && Numbers.IsIntLiteral(parts[0]) && |Numbers.LiteralDigits(parts[0])| <= Numbers.MaxStrDigits
    ensures r.Some? ==> Tokens.IsWord(r.value.path)
    ensures r.Some? ==>
      && r.value.path == Tokens.Split(line)[1]
      && Numbers.ParseInt(Tokens.Split(line)[0]) == Some(r.value.size)
  {
    var parts := Tokens.Split(line);
    if |parts| >= 2 then
      match Numbers.ParseInt(parts[0])
      case Some(n) => Some(Entry(parts[1], n))
      case None => None
    else None
  }

  /** A `du` line with the size, whitespace, the path and possibly further
      tokens is read as that (path, size); tokens after the path are ignored. */
  lemma ParseLineOfFormatted(size: int, path: string, more: seq<string>, sep: char)
    requires Numbers.DigitCount(size) <= Numbers.MaxStrDigits
    requires Tokens.IsSpace(sep)
    requires Tokens.IsWord(path)
    requires forall i :: 0 <= i < |more| ==> Tokens.IsWord(more[i])
    ensures ParseLine(Tokens.Join([Numbers.FormatInt(size), path] + more, sep)) == Some(Entry(path, size))
  {
    var ts := [Numbers.FormatInt(size), path] + more;
    Tokens.SplitJoin(ts, sep);
    Numbers.ParseFormat(size);
  }

  /** The same with any whitespace: leading whitespace, runs of whitespace
      between the tokens and trailing whitespace leave (path, size) as is. */
  lemma ParseLineSpaced(lead: string, size: int, path: string, more: seq<string>, gaps: seq<string>)
    requires Numbers.DigitCount(size) <= Numbers.MaxStrDigits
    requires Tokens.IsBlank(lead)
    requires Tokens.IsWord(path)
    requires forall i :: 0 <= i < |more| ==> Tokens.IsWord(more[i])
    requires |gaps| == |more| + 2
    requires forall i :: 0 <= i < |gaps| ==> Tokens.IsBlank(gaps[i])
    requires forall i :: 0 <= i < |gaps| - 1 ==> gaps[i] != ""
    ensures ParseLine(lead + Tokens.Spaced([Numbers.FormatInt(size), path] + more, gaps)) == Some(Entry(path, size))
  {
    var ts := [Numbers.FormatInt(size), path] + more;
    assert forall i :: 0 <= i < |ts| ==> Tokens.IsWord(ts[i]) && Tokens.IsBlank(gaps[i]);
    Tokens.SplitSpaced(lead, ts, gaps);
    Numbers.ParseFormat(size);
  }

  /** A parsed line that sets path `k` (whatever the size). */
  predicate Sets(item: Option<Entry>, k: string) {
    item.Some? && item.value.path == k
  }

  /** The loop of `create_dir_dict` over already parsed lines: every parsed
      entry is stored in turn, skipped lines leave the table alone. */
  function Store(items: seq<Option<Entry>>): (r: Table)
    ensures UniquePaths(r)
    decreases |items|
  {
    if items == [] then []
    else
      var d := Store(items[..|items| - 1]);
      match items[|items| - 1]
      case None => d
      case Some(e) => Put(d, e.path, e.size)
  }

  lemma StoreStep(front: seq<Option<Entry>>, item: Option<Entry>)
    ensures Store(front + [item]) ==
      match item
      case None => Store(front)
      case Some(e) => Put(Store(front), e.path, e.size)
  {
    var items := front + [item];
    assert items[..|items| - 1] == front;
  }

  /** An item with a new path appends one entry to the table. */
  lemma StoreAppendNew(front: seq<Option<Entry>>, e: Entry)
    requires !HasPath(Store(front), e.path)
    ensures Store(front + [Some(e)]) == Store(front) + [e]
  {
    StoreStep(front, Some(e));
  }

  /** What the last item does to the lookup of `k`. */
  lemma StoreLookupStep(front: seq<Option<Entry>>, item: Option<Entry>, k: string)
    ensures Lookup(Store(front + [item]), k) ==
      if Sets(item, k) then Some(item.value.size) else Lookup(Store(front), k)
  {
    StoreStep(front, item);
    match item
    case None =>
    case Some(e) =>
      PutLookup(Store(front), e.path, e.size, k);
  }

  /** Item `i` reads (k, v) and no later item sets `k` again. */
  predicate LastSets(items: seq<Option<Entry>>, i: int, k: string, v: int) {
    && 0 <= i < |items|
    && items[i] == Some(Entry(k, v))
    && forall j :: i < j < |items| ==> !Sets(items[j], k)
  }

  lemma {:induction false} StoreLookup(items: seq<Option<Entry>>, k: string, v: int)
    ensures Lookup(Store(items), k) == Some(v) <==> exists i :: LastSets(items, i, k, v)
    decreases |items|
  {
    if items != [] {
      var n := |items| - 1;
      var front := items[..n];
      var item := items[n];
      assert items == front + [item];
      StoreLookup(front, k, v);
      StoreLookupStep(front, item, k);
      if Sets(item, k) {
        if Lookup(Store(items), k) == Some(v) {
          assert LastSets(items, n, k, v);
        }
        if i :| LastSets(items, i, k, v) {
          assert i == n;
        }
      } else {
        if Lookup(Store(items), k) == Some(v) {
          var i :| LastSets(front, i, k, v);
          assert front[i] == items[i];
          forall j | i < j < |items| ensures !Sets(items[j], k) {
            if j < n {
              assert front[j] == items[j];
            }
          }
          assert LastSets(items, i, k, v);
        }
        if i :| LastSets(items, i, k, v) {
          assert i < n;
          assert front[i] == items[i];
          forall j | i < j < |front| ensures !Sets(front[j], k) {
            assert front[j] == items[j];
          }
          assert LastSets(front, i, k, v);
        }
      }
    }
  }

  lemma {:induction false} StoreKeys(items: seq<Option<Entry>>, k: string)
    ensures HasPath(Store(items), k) <==> exists j :: 0 <= j < |items| && Sets(items[j], k)
    decreases |items|
  {
    if items != [] {
      var n := |items| - 1;
      var front := items[..n];
      var item := items[n];
      assert items == front + [item];
      StoreKeys(front, k);
      StoreLookupStep(front, item, k);
      assert forall j :: 0 <= j < n ==> front[j] == items[j];
    }
  }

  lemma {:induction false} StoreSkipsNone(before: seq<Option<Entry>>, after: seq<Option<Entry>>)
    ensures Store(before + [None] + after) == Store(before + after)
    decreases |after|
  {
    if after == [] {
      StoreStep(before, None);
      assert before + [None] + after == before + [None];
      assert before + after == before;
    } else {
      var n := |after| - 1;
      var init, last := after[..n], after[n];
      assert after == init + [last];
      var withBad, withoutBad := before + [None] + init, before + init;
      StoreSkipsNone(before, init);
      assert before + [None] + after == withBad + [last];
      assert before + after == withoutBad + [last];
      StoreStep(withBad, last);
      StoreStep(withoutBad, last);
    }
  }

  /** With unique paths, the one entry holding `k` is where `Find` stops. */
  lemma FindUnique(d: Table, k: string, i: nat)
    requires UniquePaths(d)
    requires i < |d| && d[i].path == k
    ensures Find(d, k) == Some(i)
  {
    assert HasPath(d, k);
  }

  /** The first item that sets `k`, if any. */
  function FirstSets(items: seq<Option<Entry>>, k: string): (r: Option<nat>)
    ensures r.None? <==> forall j :: 0 <= j < |items| ==> !Sets(items[j], k)
    ensures r.Some? ==> r.value < |items| && Sets(items[r.value], k)
    ensures r.Some? ==> forall j :: 0 <= j < r.value ==> !Sets(items[j], k)
  {
    if items == [] then None
    else if Sets(items[0], k) then Some(0)
    else
      match FirstSets(items[1..], k)
      case None =>
        assert forall j :: 1 <= j < |items| ==> items[j] == items[1..][j - 1];
        None
      case Some(i) =>
        assert forall j :: 1 <= j < |items| ==> items[j] == items[1..][j - 1];
        Some(i + 1)
  }

  /** Appending an item leaves an earlier first setter in place; otherwise
      the new item is the first setter if it sets `k`. */
  lemma FirstSetsAppend(front: seq<Option<Entry>>, item: Option<Entry>, k: string)
    ensures FirstSets(front + [item], k) ==
      if FirstSets(front, k).Some? then FirstSets(front, k)
      else if Sets(item, k) then Some(|front|)
      else None
  {
    var items := front + [item];
    assert forall j :: 0 <= j < |front| ==> items[j] == front[j];
    assert items[|front|] == item;
  }

  /** Assigning to a key that is already present moves no key. */
  lemma PutKeepsFind(d: Table, k: string, v: int, k': string)
    requires UniquePaths(d)
    requires HasPath(d, k) && HasPath(d, k')
    ensures Find(Put(d, k, v), k') == Find(d, k')
  {
    var i := Find(d, k').value;
    FindUnique(Put(d, k, v), k', i);
  }

  /** Assigning to a new key appends it and moves no other key. */
  lemma PutNewFind(d: Table, k: string, v: int, k': string)
    requires UniquePaths(d)
    requires !HasPath(d, k)
    ensures HasPath(d, k') ==> Find(Put(d, k, v), k') == Find(d, k')
    ensures Find(Put(d, k, v), k) == Some(|d|)
  {
    var r := Put(d, k, v);
    FindUnique(r, k, |d|);
    if HasPath(d, k') {
      FindUnique(r, k', Find(d, k').value);
    }
  }

  /** The order of two keys after one more item, when both were already keys. */
  lemma StoreOrderOld(front: seq<Option<Entry>>, item: Option<Entry>, a: string, b: string)
    requires HasPath(Store(front), a) && HasPath(Store(front), b)
    ensures Find(Store(front + [item]), a) == Find(Store(front), a)
    ensures Find(Store(front + [item]), b) == Find(Store(front), b)
    ensures FirstSets(front + [item], a) == FirstSets(front, a)
    ensures FirstSets(front + [item], b) == FirstSets(front, b)
  {
    StoreStep(front, item);
    StoreKeys(front, a);
    StoreKeys(front, b);
    FirstSetsAppend(front, item, a);
    FirstSetsAppend(front, item, b);
    match item
    case None =>
    case Some(e) =>
      var d := Store(front);
      if HasPath(d, e.path) {
        PutKeepsFind(d, e.path, e.size, a);
        PutKeepsFind(d, e.path, e.size, b);
      } else {
        PutNewFind(d, e.path, e.size, a);
        PutNewFind(d, e.path, e.size, b);
      }
  }

  /** The last item adds key `k` that was not there before: it goes last,
      and its first setter is that item. */
  lemma StoreOrderNew(front: seq<Option<Entry>>, item: Option<Entry>, k: string)
    requires !HasPath(Store(front), k)
    requires HasPath(Store(front + [item]), k)
    ensures Find(Store(front + [item]), k) == Some(|Store(front)|)
    ensures FirstSets(front + [item], k) == Some(|front|)
  {
    var items := front + [item];
    StoreStep(front, item);
    StoreKeys(front, k);
    StoreKeys(items, k);
    FirstSetsAppend(front, item, k);
    assert forall j :: 0 <= j < |front| ==> items[j] == front[j];
    assert items[|front|] == item;
    assert Sets(item, k);
    PutNewFind(Store(front), k, item.value.size, k);
  }

  /** Keys stay in the order in which items first set them. */
  lemma {:induction false} StoreOrder(items: seq<Option<Entry>>, a: string, b: string)
    requires HasPath(Store(items), a) && HasPath(Store(items), b)
    ensures FirstSets(items, a).Some? && FirstSets(items, b).Some?
    ensures Find(Store(items), a).value < Find(Store(items), b).value <==>
      FirstSets(items, a).value < FirstSets(items, b).value
    decreases |items|
  {
    StoreKeys(items, a);
    StoreKeys(items, b);
    var n := |items| - 1;
    var front, item := items[..n], items[n];
    assert items == front + [item];
    var d := Store(front);
    if HasPath(d, a) && HasPath(d, b) {
      StoreOrderOld(front, item, a, b);
      StoreOrder(front, a, b);
    } else if HasPath(d, a) {
      StoreOrderOld(front, item, a, a);
      StoreOrderNew(front, item, b);
      StoreKeys(front, a);
    } else if HasPath(d, b) {
      StoreOrderOld(front, item, b, b);
      StoreOrderNew(front, item, a);
      StoreKeys(front, b);
    } else {
      StoreOrderNew(front, item, a);
      StoreOrderNew(front, item, b);
    }
  }

  /** Every line parsed on its own. */
  function ParseAll(lines: seq<string>): (r: seq<Option<Entry>>)
    ensures |r| == |lines|
    ensures forall i :: 0 <= i < |lines| ==> r[i] == ParseLine(lines[i])
  {
    if lines == [] then [] else [ParseLine(lines[0])] + ParseAll(lines[1..])
  }

  lemma {:induction false} ParseAllAppend(a: seq<string>, b: seq<string>)
    ensures ParseAll(a + b) == ParseAll(a) + ParseAll(b)
    decreases |a|
  {
    if a == [] {
      assert a + b == b;
    } else {
      assert (a + b)[1..] == a[1..] + b;
      assert (a + b)[0] == a[0];
      ParseAllAppend(a[1..], b);
    }
  }

  /** `create_dir_dict(lines)`. */
  function DirDict(lines: seq<string>): (r: Table)
    ensures UniquePaths(r)
  {
    Store(ParseAll(lines))
  }

  /** The line sets path `k` (whatever the size). */
  predicate DefinesPath(line: string, k: string) {
    Sets(ParseLine(line), k)
  }

  /** Path `k` maps to `v` exactly when some valid line reads (k, v) and no
      later valid line sets `k` again: the last line for a path wins. */
  lemma DirDictLookup(lines: seq<string>, k: string, v: int)
    ensures Lookup(DirDict(lines), k) == Some(v) <==>
      exists i :: 0 <= i < |lines| && ParseLine(lines[i]) == Some(Entry(k, v))
        && forall j :: i < j < |lines| ==> !DefinesPath(lines[j], k)
  {
    var items := ParseAll(lines);
    StoreLookup(items, k, v);
    if i :| LastSets(items, i, k, v) {
      assert ParseLine(lines[i]) == Some(Entry(k, v));
      assert forall j :: i < j < |lines| ==> !DefinesPath(lines[j], k);
    }
    if i :| (0 <= i < |lines| && ParseLine(lines[i]) == Some(Entry(k, v))
             && forall j :: i < j < |lines| ==> !DefinesPath(lines[j], k)) {
      assert forall j :: i < j < |items| ==> !Sets(items[j], k);
      assert LastSets(items, i, k, v);
    }
  }

  /** Path `k` is a key of the table exactly when some valid line sets it. */
  lemma DirDictKeys(lines: seq<string>, k: string)
    ensures HasPath(DirDict(lines), k) <==> exists j :: 0 <= j < |lines| && DefinesPath(lines[j], k)
  {
    var items := ParseAll(lines);
    StoreKeys(items, k);
    if j :| 0 <= j < |items| && Sets(items[j], k) {
      assert DefinesPath(lines[j], k);
    }
  }

  /** The first valid line that sets path `k`, if any. */
  function FirstLine(lines: seq<string>, k: string): (r: Option<nat>)
    ensures r.None? <==> forall j :: 0 <= j < |lines| ==> !DefinesPath(lines[j], k)
    ensures r.Some? ==> r.value < |lines| && DefinesPath(lines[r.value], k)
    ensures r.Some? ==> forall j :: 0 <= j < r.value ==> !DefinesPath(lines[j], k)
  {
    FirstSets(ParseAll(lines), k)
  }

  /** The table lists its paths in the order of their first valid line: a
      later line for a known path changes its size but not its place. */
  lemma DirDictOrder(lines: seq<string>, a: string, b: string)
    requires HasPath(DirDict(lines), a) && HasPath(DirDict(lines), b)
    ensures FirstLine(lines, a).Some? && FirstLine(lines, b).Some?
    ensures Find(DirDict(lines), a).value < Find(DirDict(lines), b).value <==>
      FirstLine(lines, a).value < FirstLine(lines, b).value
  {
    StoreOrder(ParseAll(lines), a, b);
  }

  /** A line that does not parse is skipped without disturbing the others. */
  lemma DirDictSkipsBadLine(before: seq<string>, bad: string, after: seq<string>)
    requires ParseLine(bad).None?
    ensures DirDict(before + [bad] + after) == DirDict(before + after)
  {
    ParseAllAppend(before + [bad], after);
    ParseAllAppend(before, [bad]);
    ParseAllAppend(before, after);
    assert ParseAll([bad]) == [None];
    StoreSkipsNone(ParseAll(before), ParseAll(after));
  }

  lemma ExampleBadLine()
    ensures ParseLine("bad line") == None
  {
    Tokens.SplitJoin(["bad", "line"], ' ');
    assert Tokens.Join(["bad", "line"], ' ') == "bad line";
    assert !Numbers.IsDigitGroup("bad");
  }

  /** A line as `du` prints it: the size, a tab, the path. */
  function DuLine(size: string, path: string): string {
    size + "\t" + path
  }

  lemma ExampleSizeLine(size: int, digits: string, path: string)
    requires Numbers.FormatInt(size) == digits
    requires Numbers.DigitCount(size) <= Numbers.MaxStrDigits
    requires Tokens.IsWord(path)
    ensures ParseLine(DuLine(digits, path)) == Some(Entry(path, size))
  {
    ParseLineOfFormatted(size, path, [], '\t');
    assert Tokens.Join([digits, path], '\t') == digits + "\t" + path;
  }

  lemma FormatExamples()
    ensures Numbers.FormatInt(4096) == "4096" && Numbers.DigitCount(4096) == 4
    ensures Numbers.FormatInt(8192) == "8192" && Numbers.DigitCount(8192) == 4
  {
    assert Numbers.Digits(4) == "4";
    assert Numbers.Digits(40) == "40";
    assert Numbers.Digits(409) == "409";
    assert Numbers.Digits(8) == "8";
    assert Numbers.Digits(81) == "81";
    assert Numbers.Digits(819) == "819";
  }

  lemma ParseAllThree(x: string, y: string, z: string)
    ensures ParseAll([x, y, z]) == [ParseLine(x), ParseLine(y), ParseLine(z)]
  {
    var lines := [x, y, z];
    assert lines[1..] == [y, z];
    assert lines[1..][1..] == [z];
    assert lines[1..][1..][1..] == [];
  }

  lemma ExampleLineA()
    ensures ParseLine(DuLine("4096", "/a")) == Some(Entry("/a", 4096))
  {
    FormatExamples();
    ExampleSizeLine(4096, "4096", "/a");
  }

  lemma ExampleLineB()
    ensures ParseLine(DuLine("8192", "/b")) == Some(Entry("/b", 8192))
  {
    FormatExamples();
    ExampleSizeLine(8192, "8192", "/b");
  }

  lemma ExampleParsed()
    ensures ParseAll(["bad line", DuLine("4096", "/a"), DuLine("8192", "/b")])
         == [None, Some(Entry("/a", 4096)), Some(Entry("/b", 8192))]
  {
    ExampleBadLine();
    ExampleLineA();
    ExampleLineB();
    ParseAllThree("bad line", DuLine("4096", "/a"), DuLine("8192", "/b"));
  }

  lemma ExampleStoredA()
    ensures Store([None, Some(Entry("/a", 4096))]) == [Entry("/a", 4096)]
  {
    var none: Option<Entry> := None;
    var empty: seq<Option<Entry>> := [];
    StoreStep(empty, none);
    assert [none] == empty + [none];
    assert Store([none]) == [];
    StoreAppendNew([none], Entry("/a", 4096));
    assert [none, Some(Entry("/a", 4096))] == [none] + [Some(Entry("/a", 4096))];
  }

  lemma ExampleStored()
    ensures Store([None, Some(Entry("/a", 4096)), Some(Entry("/b", 8192))])
         == [Entry("/a", 4096), Entry("/b", 8192)]
  {
    var a, b := Entry("/a", 4096), Entry("/b", 8192);
    var front: seq<Option<Entry>> := [None, Some(a)];
    ExampleStoredA();
    assert !HasPath([a], "/b");
    StoreAppendNew(front, b);
    assert front + [Some(b)] == [None, Some(a), Some(b)];
  }

  /** The skipped-line example: `["bad line", "4096\t/a", "8192\t/b"]` gives
      `{"/a": 4096, "/b": 8192}`. */
  lemma DirDictExample()
    ensures DirDict(["bad line", DuLine("4096", "/a"), DuLine("8192", "/b")]) == [Entry("/a", 4096), Entry("/b", 8192)]
  {
    ExampleParsed();
    ExampleStored();
  }
}

=== FILE: numbers.dfy ===
/** Decimal integers as text: the subset of Python's `int(token)` that a
    `du` size column can hold, and the `f"{size}"` rendering that is its
    inverse. */
module Numbers {
  import opened Wrappers
  import Tokens

  predicate IsDigit(c: char) {
    '0' <= c <= '9'
  }

  function DigitValue(c: char): (d: nat)
    requires IsDigit(c)
    ensures d < 10
  {
    (c as int) - ('0' as int)
  }

  function DigitChar(d: nat): (c: char)
    requires d < 10
    ensures IsDigit(c) && DigitValue(c) == d
  {
    ('0' as int + d) as char
  }

  predicate AllDigits(s: string) {
    forall i :: 0 <= i < |s| ==> IsDigit(s[i])
  }

  /** The body of a base-10 literal accepted by `int()`: digits, where a
      single underscore may stand between two digits. */
  predicate IsDigitGroup(b: string) {
    && |b| > 0
    && IsDigit(b[0])
    && IsDigit(b[|b| - 1])
    && (forall i :: 0 <= i < |b| ==> IsDigit(b[i]) || b[i] == '_')
    && (forall i :: 0 <= i < |b| - 1 && b[i] == '_' ==> IsDigit(b[i + 1]))
  }

  /** A token `int()` accepts in base 10: an optional sign and a digit group. */
  predicate IsIntLiteral(s: string) {
    || IsDigitGroup(s)
    || (|s| > 0 && (s[0] == '+' || s[0] == '-') && IsDigitGroup(s[1..]))
  }

  function DropUnderscores(b: string): (r: string)
    requires forall i :: 0 <= i < |b| ==> IsDigit(b[i]) || b[i] == '_'
    ensures AllDigits(r)
    ensures AllDigits(b) ==> r == b
  {
    if b == [] then []
    else if b[0] == '_' then DropUnderscores(b[1..])
    else [b[0]] + DropUnderscores(b[1..])
  }

  /** The value of a string of decimal digits, most significant first. */
  function DigitsValue(d: string): nat
    requires AllDigits(d)
  {
    if d == [] then 0
    else DigitsValue(d[..|d| - 1]) * 10 + DigitValue(d[|d| - 1])
  }

  function Magnitude(b: string): nat
    requires IsDigitGroup(b)
  {
    DigitsValue(DropUnderscores(b))
  }

  /** CPython's default cap on the number of digits `int()` converts from
      text (`sys.int_info.default_max_str_digits`, Python 3.11 and later).
      A literal with more digits raises `ValueError`; underscores and the
      sign do not count, leading zeros do. */
  const MaxStrDigits := 4300

  /** The digits of a literal, without its sign and underscores. */
  function LiteralDigits(s: string): (d: string)
    requires IsIntLiteral(s)
    ensures |d| > 0 && AllDigits(d)
  {
    if IsDigitGroup(s) then DropUnderscores(s) else DropUnderscores(s[1..])
  }

  /** `int(s)`: `None` where Python raises `ValueError`, that is off the
      literal syntax or beyond the digit cap. */
  function ParseInt(s: string): (r: Option<int>)
    ensures r.Some? <==> IsIntLiteral(s) && |LiteralDigits(s)| <= MaxStrDigits
    ensures r.Some? && s[0] == '-' ==> r.value <= 0
    ensures r.Some? && s[0] != '-' ==> r.value >= 0
  {
    if !IsIntLiteral(s) || |LiteralDigits(s)| > MaxStrDigits then None
    else if IsDigitGroup(s) then Some(Magnitude(s))
    else if s[0] == '+' then Some(Magnitude(s[1..]))
    else Some(-(Magnitude(s[1..]) as int))
  }

  /** The shortest decimal digits of `n`. */
  function Digits(n: nat): (d: string)
    ensures |d| > 0 && AllDigits(d)
    ensures |d| > 1 ==> d[0] != '0'
  {
    if n < 10 then [DigitChar(n)] else Digits(n / 10) + [DigitChar(n % 10)]
  }

  /** `f"{n}"` for an integer `n`. */
  function FormatInt(n: int): (s: string)
    ensures IsIntLiteral(s)
    ensures Tokens.IsWord(s)
    ensures s[0] == '-' <==> n < 0
    ensures AllDigits(s[if n < 0 then 1 else 0..])
    ensures |s| > (if n < 0 then 2 else 1) ==> s[if n < 0 then 1 else 0] != '0'
  {
    var d := if n < 0 then Digits(-n) else Digits(n);
    assert forall i :: 0 <= i < |d| ==> !Tokens.IsSpace(d[i]) by {
      forall i | 0 <= i < |d| ensures !Tokens.IsSpace(d[i]) {
        assert IsDigit(d[i]);
      }
    }
    if n < 0 then
      var s := "-" + d;
      assert s[1..] == d;
      s
    else d
  }

  lemma {:induction false} DigitsValueOfDigits(n: nat)
    ensures DigitsValue(Digits(n)) == n
    decreases n
  {
    if n >= 10 {
      var d := Digits(n);
      assert d[..|d| - 1] == Digits(n / 10);
      DigitsValueOfDigits(n / 10);
    }
  }

  /** The number of decimal digits of `n`, without its sign. */
  function DigitCount(n: int): nat {
    if n < 0 then |Digits(-n)| else |Digits(n)|
  }

  /** Rendering an integer and reading it back with `int()` gives it back,
      as long as it is within the digit cap. */
  lemma {:induction false} ParseFormat(n: int)
    requires DigitCount(n) <= MaxStrDigits
    ensures ParseInt(FormatInt(n)) == Some(n)
  {
    var m: nat := if n < 0 then -n else n;
    var d := Digits(m);
    DigitsValueOfDigits(m);
    assert DropUnderscores(d) == d;
    if n < 0 {
      assert FormatInt(n)[1..] == d;
      assert !IsDigitGroup(FormatInt(n));
    }
    assert LiteralDigits(FormatInt(n)) == d;
  }

  /** A plain run of digits reads as its decimal value, unless it is longer
      than the digit cap, where `int()` raises. */
  lemma ParseDigits(d: string)
    requires |d| > 0 && AllDigits(d)
    ensures ParseInt(d) == if |d| <= MaxStrDigits then Some(DigitsValue(d)) else None
  {
    assert IsDigitGroup(d);
    assert LiteralDigits(d) == d;
  }

  /** A sign in front of a digit group: `+` leaves the value as it is and
      `-` negates it; the sign does not count towards the digit cap. */
  lemma ParseSigned(b: string)
    requires IsDigitGroup(b)
    ensures ParseInt("+" + b) == ParseInt(b)
    ensures ParseInt("-" + b) == if ParseInt(b).Some? then Some(-ParseInt(b).value) else None
  {
    assert ("+" + b)[1..] == b;
    assert ("-" + b)[1..] == b;
    assert !IsDigitGroup("+" + b) && !IsDigitGroup("-" + b);
  }

  /** Underscores between digits change neither the value nor the digit
      count: a digit group reads as its digits alone. */
  lemma ParseUnderscores(b: string)
    requires IsDigitGroup(b)
    ensures ParseInt(b) == ParseInt(DropUnderscores(b))
  {
    var d := DropUnderscores(b);
    assert d == [b[0]] + DropUnderscores(b[1..]);
    assert IsDigitGroup(d);
    assert LiteralDigits(d) == d;
  }
}

=== FILE: report.dfy ===
/** The report assembly of the main block: find the target's total, keep the
    other entries, sort them by size (largest first) and turn each into a
    percentage and a bar. Path normalisation (`os.path.abspath(p).rstrip('/')`)
    depends on the working directory, so it is a parameter `norm`. */
module Report {
  import opened Wrappers
  import opened DuTable
  import Bar
  import Arith

  /** Why a run stops before printing its total line. */
  datatype Fault =
    | TotalUndetermined  // no entry matches the target: exit status 1
    | ZeroDivision       // the total is 0 and there is a child to divide
    | PercentOutOfRange  // `percent_to_graph` raised for a child

  /** One printed line: percentage, bar, size and path. */
  datatype Row = Row(percent: real, bar: string, size: int, path: string)

  /** What a run prints: the child rows, then either the total line or a
      fault. Rows printed before a fault stay printed. */
  datatype Outcome =
    | Completed(rows: seq<Row>, total: int)
    | Aborted(rows: seq<Row>, fault: Fault)

  /** The entry's path names the target once both are normalised. */
  predicate IsTarget(norm: string -> string, target: string, path: string) {
    norm(path) == norm(target)
  }

  /** Entry `i` is the first one that names the target. */
  predicate FirstTarget(d: Table, norm: string -> string, target: string, i: int) {
    && 0 <= i < |d|
    && IsTarget(norm, target, d[i].path)
    && forall j :: 0 <= j < i ==> !IsTarget(norm, target, d[j].path)
  }

  /** The first entry, in insertion order, that names the target. */
  function FindTotal(d: Table, norm: string -> string, target: string): (r: Option<int>)
    ensures r.None? <==> forall i :: 0 <= i < |d| ==> !IsTarget(norm, target, d[i].path)
    ensures r.Some? ==> exists i :: FirstTarget(d, norm, target, i) && d[i].size == r.value
  {
    if d == [] then None
    else if IsTarget(norm, target, d[0].path) then Some(d[0].size)
    else
      var r := FindTotal(d[1..], norm, target);
      assert forall i :: 1 <= i < |d| ==> d[i] == d[1..][i - 1];
      if r.Some? then
        var i :| FirstTarget(d[1..], norm, target, i) && d[1..][i].size == r.value;
        assert forall j :: 0 <= j < i + 1 ==> !IsTarget(norm, target, d[j].path) by {
          forall j | 0 <= j < i + 1 ensures !IsTarget(norm, target, d[j].path) {
            if j > 0 {
              assert d[j] == d[1..][j - 1];
            }
          }
        }
        assert d[i + 1] == d[1..][i];
        assert FirstTarget(d, norm, target, i + 1);
        r
      else r
  }

  /** The entries that are not the target, in table order. */
  function Children(d: Table, norm: string -> string, target: string): (r: Table)
    ensures forall e :: e in r <==> e in d && !IsTarget(norm, target, e.path)
    ensures forall e :: multiset(r)[e] == if IsTarget(norm, target, e.path) then 0 else multiset(d)[e]
    ensures |d| == 1 ==> r == if IsTarget(norm, target, d[0].path) then [] else d
    ensures |r| <= |d|
  {
    if d == [] then []
    else
      var rest := Children(d[1..], norm, target);
      assert d == [d[0]] + d[1..];
      assert forall e :: e in d <==> e == d[0] || e in d[1..];
      if IsTarget(norm, target, d[0].path) then rest else [d[0]] + rest
  }

  /** The filter works piecewise, so it keeps the table order: the children
      of a concatenation are the children of the first part followed by the
      children of the second. */
  lemma {:induction false} ChildrenAppend(a: Table, b: Table, norm: string -> string, target: string)
    ensures Children(a + b, norm, target) == Children(a, norm, target) + Children(b, norm, target)
    decreases |a|
  {
    if a == [] {
      assert a + b == b;
    } else {
      assert (a + b)[0] == a[0];
      assert (a + b)[1..] == a[1..] + b;
      ChildrenAppend(a[1..], b, norm, target);
    }
  }

  /** Sizes never increase along the sequence. */
  predicate SortedDesc(s: Table) {
    forall i, j :: 0 <= i < j < |s| ==> s[i].size >= s[j].size
  }

  /** An entry at least as large as the head of a sorted sequence can go
      in front of it. */
  lemma ConsSorted(y: Entry, s: Table)
    requires SortedDesc(s)
    requires s == [] || s[0].size <= y.size
    ensures SortedDesc([y] + s)
  {
    var r := [y] + s;
    assert forall i :: 1 <= i < |r| ==> r[i] == s[i - 1];
    assert forall j :: 0 <= j < |s| ==> s[j].size <= y.size;
  }

  lemma SortedTail(s: Table)
    requires SortedDesc(s) && s != []
    ensures SortedDesc(s[1..])
  {
    assert forall i :: 0 <= i < |s| - 1 ==> s[1..][i] == s[i + 1];
  }

  /** Puts `x` before the first entry that is not larger, i.e. ahead of the
      entries of equal size, which came after it in the input. */
  function InsertDesc(x: Entry, s: Table): (r: Table)
    requires SortedDesc(s)
    ensures |r| == |s| + 1
    ensures r[0] == x || (s != [] && r[0] == s[0])
    ensures SortedDesc(r)
    ensures multiset(r) == multiset(s) + multiset{x}
  {
    if s == [] || s[0].size <= x.size then
      ConsSorted(x, s);
      [x] + s
    else
      SortedTail(s);
      var rest := InsertDesc(x, s[1..]);
      assert s == [s[0]] + s[1..];
      ConsSorted(s[0], rest);
      [s[0]] + rest
  }

  /** `items.sort(key=lambda x: x[1], reverse=True)`. */
  function SortBySize(s: Table): (r: Table)
    ensures SortedDesc(r)
    ensures multiset(r) == multiset(s)
  {
    if s == [] then []
    else
      assert s == [s[0]] + s[1..];
      InsertDesc(s[0], SortBySize(s[1..]))
  }

  /** The entries of size `v`, in order. */
  function WithSize(s: Table, v: int): Table {
    if s == [] then []
    else if s[0].size == v then [s[0]] + WithSize(s[1..], v)
    else WithSize(s[1..], v)
  }

  lemma {:induction false} InsertDescWithSize(x: Entry, s: Table, v: int)
    requires SortedDesc(s)
    ensures WithSize(InsertDesc(x, s), v) == if x.size == v then [x] + WithSize(s, v) else WithSize(s, v)
    decreases |s|
  {
    if s == [] || s[0].size <= x.size {
      var r := [x] + s;
      assert r[1..] == s;
      if s != [] && x.size == v && s[0].size != v {
        WithSizeBelow(s, v);
      }
    } else {
      var r := [s[0]] + InsertDesc(x, s[1..]);
      assert r[1..] == InsertDesc(x, s[1..]);
      InsertDescWithSize(x, s[1..], v);
    }
  }

  /** In a sorted sequence nothing after a smaller first entry has a larger size. */
  lemma {:induction false} WithSizeBelow(s: Table, v: int)
    requires SortedDesc(s)
    requires s != [] && s[0].size < v
    ensures WithSize(s, v) == []
    decreases |s|
  {
    if |s| > 1 {
      assert s[1].size <= s[0].size;
      WithSizeBelow(s[1..], v);
    }
  }

  /** The sort is stable: entries of equal size keep their input order. */
  lemma {:induction false} SortBySizeStable(s: Table, v: int)
    ensures WithSize(SortBySize(s), v) == WithSize(s, v)
    decreases |s|
  {
    if s != [] {
      SortBySizeStable(s[1..], v);
      InsertDescWithSize(s[0], SortBySize(s[1..]), v);
    }
  }

  /** `(size / total_size) * 100` in exact arithmetic: the share of the
      total that `size` makes up, scaled to 100. */
  function Percent(size: int, total: int): (r: real)
    requires total != 0
    ensures r * total as real == size as real * 100.0
  {
    var q := size as real / total as real;
    assert q * total as real == size as real;
    q * 100.0
  }

  /** With a positive total, the percentage is in [0, 100] exactly when the
      size is between 0 and the total. */
  lemma PercentInRange(size: int, total: int)
    requires total > 0
    ensures 0.0 <= Percent(size, total) <= 100.0 <==> 0 <= size <= total
  {
    var t := total as real;
    var q := size as real / t;
    assert q * t == size as real;
    if 0.0 <= q {
      Arith.MulNonneg(q, t);
    } else {
      Arith.MulNonneg(-q, t);
    }
    if q <= 1.0 {
      Arith.MulNonneg(1.0 - q, t);
    } else {
      Arith.MulNonneg(q - 1.0, t);
    }
  }

  /** `row` is the printed line for entry `e`. */
  predicate RowOf(row: Row, e: Entry, total: int, width: int)
    requires total != 0
  {
    && row.path == e.path
    && row.size == e.size
    && row.percent == Percent(e.size, total)
    && Bar.PercentToGraph(row.percent, width) == Ok(row.bar)
  }

  predicate InRange(e: Entry, total: int)
    requires total != 0
  {
    0.0 <= Percent(e.size, total) <= 100.0
  }

  /** `r` is what the printing loop yields for the children `cs`: it
      completes exactly when every child is in range, otherwise it stops at
      the first child out of range; each printed row belongs to its child. */
  predicate Renders(r: Outcome, cs: Table, total: int, width: int)
    requires total != 0
  {
    && (r.Completed? <==> forall i :: 0 <= i < |cs| ==> InRange(cs[i], total))
    && (r.Completed? ==> r.total == total && |r.rows| == |cs|)
    && (r.Aborted? ==> r.fault == PercentOutOfRange && |r.rows| < |cs| && !InRange(cs[|r.rows|], total))
    && |r.rows| <= |cs|
    && (forall i :: 0 <= i < |r.rows| ==> RowOf(r.rows[i], cs[i], total, width) && InRange(cs[i], total))
  }

  /** `row` printed, then whatever the rest of the loop printed. */
  function Prepend(row: Row, rest: Outcome): (r: Outcome)
    ensures r.rows == [row] + rest.rows
  {
    match rest
    case Completed(rows, total) => Completed([row] + rows, total)
    case Aborted(rows, fault) => Aborted([row] + rows, fault)
  }

  /** One more child in range in front of a rendered rest. */
  lemma RendersCons(cs: Table, total: int, width: int, row: Row, rest: Outcome)
    requires total != 0 && cs != []
    requires RowOf(row, cs[0], total, width) && InRange(cs[0], total)
    requires Renders(rest, cs[1..], total, width)
    ensures Renders(Prepend(row, rest), cs, total, width)
  {
    var r := Prepend(row, rest);
    assert forall i :: 1 <= i < |cs| ==> cs[i] == cs[1..][i - 1];
    assert forall i :: 1 <= i < |r.rows| ==> r.rows[i] == rest.rows[i - 1];
  }

  /** The printing loop: one row per child until `percent_to_graph` raises. */
  function RenderRows(cs: Table, total: int, width: int): (r: Outcome)
    requires total != 0
    ensures r.Completed? <==> forall i :: 0 <= i < |cs| ==> InRange(cs[i], total)
    ensures r.Completed? ==> r.total == total && |r.rows| == |cs|
    ensures r.Aborted? ==> r.fault == PercentOutOfRange && |r.rows| < |cs| && !InRange(cs[|r.rows|], total)
    ensures |r.rows| <= |cs|
    ensures forall i :: 0 <= i < |r.rows| ==> RowOf(r.rows[i], cs[i], total, width) && InRange(cs[i], total)
  {
    if cs == [] then Completed([], total)
    else
      var p := Percent(cs[0].size, total);
      match Bar.PercentToGraph(p, width)
      case Err(_) => Aborted([], PercentOutOfRange)
      case Ok(bar) =>
        var row := Row(p, bar, cs[0].size, cs[0].path);
        var rest := RenderRows(cs[1..], total, width);
        RendersCons(cs, total, width, row, rest);
        Prepend(row, rest)
  }

  /** Lines 86-103 over an already built table. */
  function BuildReport(d: Table, norm: string -> string, target: string, width: int): (r: Outcome)
    ensures r.Aborted? && r.fault == TotalUndetermined <==> FindTotal(d, norm, target).None?
    ensures r.Aborted? && r.fault == ZeroDivision <==>
      FindTotal(d, norm, target) == Some(0) && Children(d, norm, target) != []
    ensures r.Aborted? && r.fault == PercentOutOfRange <==>
      && FindTotal(d, norm, target).Some?
      && FindTotal(d, norm, target).value != 0
      && exists e :: e in Children(d, norm, target) && !InRange(e, FindTotal(d, norm, target).value)
    ensures r.Completed? <==>
      && FindTotal(d, norm, target).Some?
      && (|| Children(d, norm, target) == []
          || (&& FindTotal(d, norm, target).value != 0
              && forall e :: e in Children(d, norm, target) ==> InRange(e, FindTotal(d, norm, target).value)))
    ensures r.Completed? ==> Some(r.total) == FindTotal(d, norm, target) && |r.rows| == |Children(d, norm, target)|
    ensures r.Aborted? && r.fault != PercentOutOfRange ==> r.rows == []
    ensures FindTotal(d, norm, target).Some? && FindTotal(d, norm, target).value != 0 ==>
      var total, cs := FindTotal(d, norm, target).value, Sorted(d, norm, target);
      && |r.rows| <= |cs|
      && (forall i :: 0 <= i < |r.rows| ==> RowOf(r.rows[i], cs[i], total, width) && InRange(cs[i], total))
      && (r.Aborted? ==> |r.rows| < |cs| && !InRange(cs[|r.rows|], total))
  {
    match FindTotal(d, norm, target)
    case None => Aborted([], TotalUndetermined)
    case Some(total) =>
      var cs := Sorted(d, norm, target);
      assert |cs| == |multiset(cs)| == |Children(d, norm, target)|;
      if cs == [] then Completed([], total)
      else if total == 0 then Aborted([], ZeroDivision)
      else
        var r := RenderRows(cs, total, width);
        SortedRange(d, norm, target, total);
        r
  }

  /** `total` is the size on a valid `du` line that names the target and
      that no later valid line for the same path overrides. */
  predicate TotalFromLine(lines: seq<string>, norm: string -> string, target: string, total: int) {
    exists j :: 0 <= j < |lines| && ParseLine(lines[j]).Some?
      && IsTarget(norm, target, ParseLine(lines[j]).value.path)
      && ParseLine(lines[j]).value.size == total
      && forall j' :: j < j' < |lines| ==> !DefinesPath(lines[j'], ParseLine(lines[j]).value.path)
  }

  /** The whole pipeline from `du` lines to what is printed. A completed run
      prints as total the size the last valid line for the target's path
      gives. */
  function DuReport(lines: seq<string>, norm: string -> string, target: string, width: int): (r: Outcome)
    ensures r.Completed? ==> TotalFromLine(lines, norm, target, r.total)
  {
    var d := DirDict(lines);
    var r := BuildReport(d, norm, target, width);
    assert r.Completed? ==> TotalFromLine(lines, norm, target, r.total)
    by {
      if r.Completed? {
        var i :| FirstTarget(d, norm, target, i) && d[i].size == r.total;
        FindUnique(d, d[i].path, i);
        DirDictLookup(lines, d[i].path, d[i].size);
      }
    }
    r
  }

  /** The run stops with "could not determine total size" exactly when no
      valid `du` line names the target; in particular when `du` printed
      nothing usable. */
  lemma DuReportNoTotal(lines: seq<string>, norm: string -> string, target: string, width: int)
    ensures var r := DuReport(lines, norm, target, width);
      r.Aborted? && r.fault == TotalUndetermined <==>
      forall j :: 0 <= j < |lines| && ParseLine(lines[j]).Some? ==>
        !IsTarget(norm, target, ParseLine(lines[j]).value.path)
  {
    var d := DirDict(lines);
    if j :| 0 <= j < |lines| && ParseLine(lines[j]).Some? && IsTarget(norm, target, ParseLine(lines[j]).value.path) {
      var k := ParseLine(lines[j]).value.path;
      DirDictKeys(lines, k);
      var i :| 0 <= i < |d| && d[i].path == k;
    }
    if i :| 0 <= i < |d| && IsTarget(norm, target, d[i].path) {
      DirDictKeys(lines, d[i].path);
    }
  }

  /** The sorted child list of the report. */
  function Sorted(d: Table, norm: string -> string, target: string): (cs: Table)
    ensures SortedDesc(cs)
    ensures multiset(cs) == multiset(Children(d, norm, target))
    ensures forall e :: multiset(cs)[e] == if IsTarget(norm, target, e.path) then 0 else multiset(d)[e]
    ensures forall e :: e in cs <==> e in d && !IsTarget(norm, target, e.path)
  {
    var cs := SortBySize(Children(d, norm, target));
    assert forall e :: e in cs <==> e in multiset(cs);
    assert forall e :: e in Children(d, norm, target) <==> e in multiset(Children(d, norm, target));
    cs
  }

  /** Picking the entries of one size commutes with dropping the target. */
  lemma {:induction false} WithSizeChildren(d: Table, norm: string -> string, target: string, v: int)
    ensures WithSize(Children(d, norm, target), v) == Children(WithSize(d, v), norm, target)
    decreases |d|
  {
    if d != [] {
      WithSizeChildren(d[1..], norm, target, v);
      var rest := Children(d[1..], norm, target);
      if !IsTarget(norm, target, d[0].path) {
        assert ([d[0]] + rest)[1..] == rest;
      }
      if d[0].size == v {
        var w := [d[0]] + WithSize(d[1..], v);
        assert w[0] == d[0] && w[1..] == WithSize(d[1..], v);
      }
    }
  }

  /** Children of equal size are listed in table order: the children of size
      `v` in the report are the table's entries of size `v`, target left
      out, in insertion order. */
  lemma SortedStable(d: Table, norm: string -> string, target: string, v: int)
    ensures WithSize(Sorted(d, norm, target), v) == Children(WithSize(d, v), norm, target)
  {
    SortBySizeStable(Children(d, norm, target), v);
    WithSizeChildren(d, norm, target, v);
  }

  /** Every child is in range exactly when every sorted child is. */
  lemma SortedRange(d: Table, norm: string -> string, target: string, total: int)
    requires total != 0
    ensures var cs := Sorted(d, norm, target);
      (forall i :: 0 <= i < |cs| ==> InRange(cs[i], total)) <==>
      (forall e :: e in Children(d, norm, target) ==> InRange(e, total))
  {
    var cs := Sorted(d, norm, target);
    if e :| e in Children(d, norm, target) && !InRange(e, total) {
      assert e in cs;
      var i :| 0 <= i < |cs| && cs[i] == e;
    }
    if i :| 0 <= i < |cs| && !InRange(cs[i], total) {
      assert cs[i] in cs;
    }
  }

  /** With a positive total and every child between 0 and the total, every
      child gets its row, in descending size, and no fault is raised. */
  lemma ReportCompletes(d: Table, norm: string -> string, target: string, width: int, total: int)
    requires FindTotal(d, norm, target) == Some(total)
    requires total > 0
    requires forall e :: e in d && !IsTarget(norm, target, e.path) ==> 0 <= e.size <= total
    ensures var r := BuildReport(d, norm, target, width);
      var cs := Sorted(d, norm, target);
      && r.Completed?
      && r.total == total
      && |r.rows| == |cs|
      && (forall i :: 0 <= i < |cs| ==> RowOf(r.rows[i], cs[i], total, width))
      && (forall i, j :: 0 <= i < j < |r.rows| ==> r.rows[i].size >= r.rows[j].size)
      && (width >= 0 ==> forall i :: 0 <= i < |r.rows| ==> |r.rows[i].bar| == width)
  {
    var cs := Sorted(d, norm, target);
    forall i | 0 <= i < |cs| ensures InRange(cs[i], total) {
      assert cs[i] in cs;
      PercentInRange(cs[i].size, total);
    }
  }

  /** A child larger than a positive total is the first child after sorting,
      so the run stops before printing any row. */
  lemma OversizedChildAbortsFirst(d: Table, norm: string -> string, target: string, width: int, total: int, e: Entry)
    requires FindTotal(d, norm, target) == Some(total)
    requires total > 0
    requires e in d && !IsTarget(norm, target, e.path)
    requires e.size > total
    ensures BuildReport(d, norm, target, width) == Aborted([], PercentOutOfRange)
  {
    var cs := Sorted(d, norm, target);
    assert e in cs;
    var k :| 0 <= k < |cs| && cs[k] == e;
    assert cs[0].size >= e.size;
    PercentInRange(cs[0].size, total);
    assert !InRange(cs[0], total);
    var r := BuildReport(d, norm, target, width);
    assert r.Aborted? by {
      assert !(forall i :: 0 <= i < |cs| ==> InRange(cs[i], total));
      SortedRange(d, norm, target, total);
    }
    assert |r.rows| == 0;
  }

  /** A larger size never gets a smaller percentage of a positive total. */
  lemma PercentMonotone(a: int, b: int, total: int)
    requires a <= b
    requires total > 0
    ensures Percent(a, total) <= Percent(b, total)
  {
    var t := total as real;
    assert b as real / t - a as real / t == (b - a) as real / t;
    Arith.MulNonneg((b - a) as real / t, 100.0);
    assert (b as real / t - a as real / t) * 100.0 == Percent(b, total) - Percent(a, total);
  }

  /** Every printed bar is at least as long as the bars printed after it. */
  lemma BarsNonIncreasing(d: Table, norm: string -> string, target: string, width: int, total: int)
    requires FindTotal(d, norm, target) == Some(total)
    requires total > 0
    ensures var rows := BuildReport(d, norm, target, width).rows;
      forall i, j :: 0 <= i < j < |rows| ==> Bar.Count('=', rows[i].bar) >= Bar.Count('=', rows[j].bar)
  {
    var rows := BuildReport(d, norm, target, width).rows;
    var cs := Sorted(d, norm, target);
    forall i, j | 0 <= i < j < |rows| ensures Bar.Count('=', rows[i].bar) >= Bar.Count('=', rows[j].bar) {
      assert RowOf(rows[i], cs[i], total, width) && InRange(cs[i], total);
      assert RowOf(rows[j], cs[j], total, width) && InRange(cs[j], total);
      PercentMonotone(cs[j].size, cs[i].size, total);
      Bar.BarMonotone(rows[j].percent, rows[i].percent, width);
    }
  }
}

=== FILE: report_examples.dfy ===
/** The two worked report examples, proved about the model. */
module ReportExamples {
  import opened Wrappers
  import opened DuTable
  import opened Report
  import Bar
  import Numbers
  import Tokens

  /** Paths compared as written: the examples use absolute paths without
      trailing slashes, on which `abspath(p).rstrip('/')` changes nothing. */
  function Verbatim(p: string): string {
    p
  }

  lemma SortTwo(a: Entry, b: Entry)
    requires a.size < b.size
    ensures SortBySize([a, b]) == [b, a]
  {
    var s := [a, b];
    assert s[1..] == [b];
    assert [b][1..] == [];
    assert SortBySize([b]) == InsertDesc(b, []) == [b];
    assert [b][1..] == [];
    assert InsertDesc(a, [b]) == [b] + InsertDesc(a, []);
  }

  lemma ChildrenThree(a: Entry, b: Entry, c: Entry, target: string)
    requires a.path == target && b.path != target && c.path != target
    ensures Children([a, b, c], Verbatim, target) == [b, c]
  {
    assert [a] + [b, c] == [a, b, c];
    assert [b] + [c] == [b, c];
    ChildrenAppend([a], [b, c], Verbatim, target);
    ChildrenAppend([b], [c], Verbatim, target);
    assert Children([a], Verbatim, target) == [];
    assert Children([b], Verbatim, target) == [b];
    assert Children([c], Verbatim, target) == [c];
  }

  /** A table of the target and two children of different sizes. */
  lemma SortedThree(a: Entry, b: Entry, c: Entry, target: string)
    requires a.path == target && b.path != target && c.path != target
    requires b.size < c.size
    ensures FindTotal([a, b, c], Verbatim, target) == Some(a.size)
    ensures Children([a, b, c], Verbatim, target) == [b, c]
    ensures Sorted([a, b, c], Verbatim, target) == [c, b]
  {
    ChildrenThree(a, b, c, target);
    SortTwo(b, c);
  }

  /** With a non-zero total and some child, the run is the printing loop
      over the sorted children. */
  lemma BuildReportRenders(d: Table, target: string, width: int, total: int)
    requires FindTotal(d, Verbatim, target) == Some(total) && total != 0
    requires Children(d, Verbatim, target) != []
    ensures BuildReport(d, Verbatim, target, width) == RenderRows(Sorted(d, Verbatim, target), total, width)
  {
  }

  /** Two children in range print two rows, in the given order. */
  lemma RenderTwo(x: Entry, y: Entry, total: int, width: int, barX: string, barY: string)
    requires total != 0
    requires Bar.PercentToGraph(Percent(x.size, total), width) == Ok(barX)
    requires Bar.PercentToGraph(Percent(y.size, total), width) == Ok(barY)
    ensures RenderRows([x, y], total, width)
         == Completed([Row(Percent(x.size, total), barX, x.size, x.path),
                       Row(Percent(y.size, total), barY, y.size, y.path)], total)
  {
    assert [x, y][1..] == [y];
    assert [y][1..] == [];
  }

  /** The target and two children between 0 and the target's size: the run
      completes, and the larger child's row comes first. */
  lemma ThreeEntryReport(a: Entry, b: Entry, c: Entry, target: string, width: int)
    requires a.path == target && b.path != target && c.path != target
    requires 0 <= b.size < c.size <= a.size
    ensures var r := BuildReport([a, b, c], Verbatim, target, width);
      && r.Completed? && r.total == a.size && |r.rows| == 2
      && r.rows[0].path == c.path && r.rows[0].size == c.size && r.rows[0].percent == Percent(c.size, a.size)
      && r.rows[1].path == b.path && r.rows[1].size == b.size && r.rows[1].percent == Percent(b.size, a.size)
  {
    SortedThree(a, b, c, target);
    BuildReportRenders([a, b, c], target, width, a.size);
    PercentInRange(b.size, a.size);
    PercentInRange(c.size, a.size);
    var cs := [c, b];
    assert InRange(cs[0], a.size) && InRange(cs[1], a.size);
  }

  /** The target and two children in range: the larger child is printed
      first, then the smaller, and the run completes with the target's size. */
  lemma ThreeEntryRows(a: Entry, b: Entry, c: Entry, target: string, width: int, barB: string, barC: string)
    requires a.path == target && b.path != target && c.path != target
    requires b.size < c.size && a.size != 0
    requires Bar.PercentToGraph(Percent(c.size, a.size), width) == Ok(barC)
    requires Bar.PercentToGraph(Percent(b.size, a.size), width) == Ok(barB)
    ensures BuildReport([a, b, c], Verbatim, target, width)
         == Completed([Row(Percent(c.size, a.size), barC, c.size, c.path),
                       Row(Percent(b.size, a.size), barB, b.size, b.path)], a.size)
  {
    SortedThree(a, b, c, target);
    BuildReportRenders([a, b, c], target, width, a.size);
    RenderTwo(c, b, a.size, width, barC, barB);
  }

  function TableX(): Table {
    [Entry("/x", 100), Entry("/x/a", 30), Entry("/x/b", 70)]
  }

  /** Table `{"/x": 100, "/x/a": 30, "/x/b": 70}` with target `/x`: the target
      is left out, `/x/b` comes first at 70% and `/x/a` follows at 30%. */
  lemma TableExample()
    ensures var r := BuildReport(TableX(), Verbatim, "/x", 20);
      && r.Completed?
      && r.total == 100
      && |r.rows| == 2
      && r.rows[0].path == "/x/b" && r.rows[0].size == 70 && r.rows[0].percent == 70.0
      && r.rows[1].path == "/x/a" && r.rows[1].size == 30 && r.rows[1].percent == 30.0
  {
    ThreeEntryReport(Entry("/x", 100), Entry("/x/a", 30), Entry("/x/b", 70), "/x", 20);
    assert Percent(70, 100) == 70.0;
    assert Percent(30, 100) == 30.0;
  }

  function RootLines(): seq<string> {
    [DuLine("300", "/root"), DuLine("100", "/root/a"), DuLine("200", "/root/b")]
  }

  function RootTable(): Table {
    [Entry("/root", 300), Entry("/root/a", 100), Entry("/root/b", 200)]
  }

  /** A three-digit size whose leading digit is `h` and whose other two
      digits are zeros renders as those three characters. */
  lemma FormatHundreds(h: nat, text: string)
    requires 1 <= h <= 9
    requires text == [Numbers.DigitChar(h), '0', '0']
    ensures Numbers.FormatInt(h * 100) == text && Numbers.DigitCount(h * 100) == 3
  {
    assert Numbers.Digits(h) == [Numbers.DigitChar(h)];
    assert Numbers.Digits(h * 10) == Numbers.Digits(h) + ['0'];
    assert Numbers.Digits(h * 100) == Numbers.Digits(h * 10) + ['0'];
  }

  lemma RootLineTotal()
    ensures ParseLine(DuLine("300", "/root")) == Some(Entry("/root", 300))
  {
    FormatHundreds(3, "300");
    ExampleSizeLine(300, "300", "/root");
  }

  lemma RootLineA()
    ensures ParseLine(DuLine("100", "/root/a")) == Some(Entry("/root/a", 100))
  {
    FormatHundreds(1, "100");
    ExampleSizeLine(100, "100", "/root/a");
  }

  lemma RootLineB()
    ensures ParseLine(DuLine("200", "/root/b")) == Some(Entry("/root/b", 200))
  {
    FormatHundreds(2, "200");
    ExampleSizeLine(200, "200", "/root/b");
  }

  lemma RootParsed()
    ensures ParseAll(RootLines()) == [Some(Entry("/root", 300)), Some(Entry("/root/a", 100)), Some(Entry("/root/b", 200))]
  {
    RootLineTotal();
    RootLineA();
    RootLineB();
    ParseAllThree(DuLine("300", "/root"), DuLine("100", "/root/a"), DuLine("200", "/root/b"));
  }

  lemma RootStoredOne()
    ensures Store([Some(Entry("/root", 300))]) == [Entry("/root", 300)]
  {
    var empty: seq<Option<Entry>> := [];
    StoreAppendNew(empty, Entry("/root", 300));
    assert empty + [Some(Entry("/root", 300))] == [Some(Entry("/root", 300))];
  }

  lemma RootStoredTwo()
    ensures Store([Some(Entry("/root", 300)), Some(Entry("/root/a", 100))])
         == [Entry("/root", 300), Entry("/root/a", 100)]
  {
    var r, a := Entry("/root", 300), Entry("/root/a", 100);
    RootStoredOne();
    assert !HasPath([r], "/root/a");
    StoreAppendNew([Some(r)], a);
    assert [Some(r)] + [Some(a)] == [Some(r), Some(a)];
  }

  lemma RootItemsStored()
    ensures Store([Some(Entry("/root", 300)), Some(Entry("/root/a", 100)), Some(Entry("/root/b", 200))]) == RootTable()
  {
    var r, a, b := Entry("/root", 300), Entry("/root/a", 100), Entry("/root/b", 200);
    RootStoredTwo();
    assert !HasPath([r, a], "/root/b");
    StoreAppendNew([Some(r), Some(a)], b);
    assert [Some(r), Some(a)] + [Some(b)] == [Some(r), Some(a), Some(b)];
  }

  lemma RootStored()
    ensures DirDict(RootLines()) == RootTable()
  {
    RootParsed();
    RootItemsStored();
  }

  /** A bar whose fill count is known, spelled out. */
  lemma BarText(percent: real, width: nat, filled: nat, text: string)
    requires 0.0 <= percent <= 100.0
    requires Bar.Filled(percent, width) == filled
    requires |text| == width && filled <= width
    requires forall i :: 0 <= i < filled ==> text[i] == '='
    requires forall i :: filled <= i < width ==> text[i] == ' '
    ensures Bar.PercentToGraph(percent, width) == Ok(text)
  {
    var b := Bar.PercentToGraph(percent, width).value;
    assert |b| == |text|;
    assert forall i :: 0 <= i < |b| ==> b[i] == text[i];
    assert b == text;
  }

  lemma RootBars()
    ensures Bar.PercentToGraph(Percent(200, 300), 10) == Ok("=======   ")
    ensures Bar.PercentToGraph(Percent(100, 300), 10) == Ok("===       ")
  {
    assert Percent(200, 300) == 200.0 / 3.0;
    assert Percent(100, 300) == 100.0 / 3.0;
    assert 200.0 / 3.0 / 100.0 * 10.0 == 20.0 / 3.0;
    assert 100.0 / 3.0 / 100.0 * 10.0 == 10.0 / 3.0;
    Bar.RoundHalfEvenUnique(20.0 / 3.0, 7);
    Bar.RoundHalfEvenUnique(10.0 / 3.0, 3);
    BarText(200.0 / 3.0, 10, 7, "=======   ");
    BarText(100.0 / 3.0, 10, 3, "===       ");
  }

  lemma RootRows()
    ensures BuildReport(RootTable(), Verbatim, "/root", 10)
         == Completed([Row(Percent(200, 300), "=======   ", 200, "/root/b"),
                       Row(Percent(100, 300), "===       ", 100, "/root/a")], 300)
  {
    RootBars();
    ThreeEntryRows(Entry("/root", 300), Entry("/root/a", 100), Entry("/root/b", 200), "/root", 10,
                   "===       ", "=======   ");
  }

  lemma RootPercents()
    ensures Percent(200, 300) == 200.0 / 3.0
    ensures Percent(100, 300) == 100.0 / 3.0
  {
  }

  lemma RootReport()
    ensures BuildReport(RootTable(), Verbatim, "/root", 10)
         == Completed([Row(200.0 / 3.0, "=======   ", 200, "/root/b"),
                       Row(100.0 / 3.0, "===       ", 100, "/root/a")], 300)
  {
    RootRows();
    RootPercents();
  }

  /** `du` prints `300 /root`, `100 /root/a` and `200 /root/b`; with target
      `/root` and bars of 10 characters the report lists `/root/b` (66.7%,
      7 `=`) before `/root/a` (33.3%, 3 `=`) and ends with the total 300. */
  lemma EndToEndExample()
    ensures DuReport(RootLines(), Verbatim, "/root", 10)
         == Completed([Row(200.0 / 3.0, "=======   ", 200, "/root/b"),
                       Row(100.0 / 3.0, "===       ", 100, "/root/a")], 300)
  {
    RootStored();
    RootReport();
  }
}

=== FILE: tokens.dfy ===
/** Whitespace tokenisation as done by Python's `str.split()` with no argument:
    runs of whitespace separate tokens, and leading or trailing whitespace
    yields no empty token. */
module Tokens {

  /** The characters for which Python's `str.isspace()` holds. */
  predicate IsSpace(c: char) {
    || ('\t' <= c <= '\r')
    || ('\U{1C}' <= c <= '\U{1F}')
    || c == ' '
    || c == '\U{85}'
    || c == '\U{A0}'
    || c == '\U{1680}'
    || ('\U{2000}' <= c <= '\U{200A}')
    || c == '\U{2028}'
    || c == '\U{2029}'
    || c == '\U{202F}'
    || c == '\U{205F}'
    || c == '\U{3000}'
  }

  /** A token: a non-empty string without whitespace. */
  predicate IsWord(t: string) {
    |t| > 0 && forall i :: 0 <= i < |t| ==> !IsSpace(t[i])
  }

  /** The length of the longest whitespace-free prefix of `s`. */
  function WordLen(s: string): (n: nat)
    ensures n <= |s|
    ensures forall i :: 0 <= i < n ==> !IsSpace(s[i])
    ensures n < |s| ==> IsSpace(s[n])
  {
    if s == [] || IsSpace(s[0]) then 0 else 1 + WordLen(s[1..])
  }

  /** `s.split()`: the maximal whitespace-free runs of `s`, in order. */
  function Split(s: string): (r: seq<string>)
    ensures forall i :: 0 <= i < |r| ==> IsWord(r[i])
    decreases |s|
  {
    if s == [] then []
    else if IsSpace(s[0]) then Split(s[1..])
    else
      var n := WordLen(s);
      [s[..n]] + Split(s[n..])
  }

  /** The tokens joined by one separator character. */
  function Join(ts: seq<string>, sep: char): string {
    if ts == [] then ""
    else if |ts| == 1 then ts[0]
    else ts[0] + [sep] + Join(ts[1..], sep)
  }

  /** `s` with every whitespace character removed. */
  function NonSpace(s: string): (r: string)
    ensures |r| <= |s|
    ensures forall i :: 0 <= i < |r| ==> !IsSpace(r[i])
  {
    if s == [] then []
    else if IsSpace(s[0]) then NonSpace(s[1..])
    else [s[0]] + NonSpace(s[1..])
  }

  /** The tokens laid end to end. */
  function Concat(ts: seq<string>): string {
    if ts == [] then "" else ts[0] + Concat(ts[1..])
  }

  /** A word followed by whitespace or by nothing is read as one whole token. */
  lemma {:induction false} WordLenOfWord(t: string, rest: string)
    requires IsWord(t)
    requires rest == [] || IsSpace(rest[0])
    ensures WordLen(t + rest) == |t|
    decreases |t|
  {
    var s := t + rest;
    assert s[0] == t[0];
    if |t| > 1 {
      assert s[1..] == t[1..] + rest;
      WordLenOfWord(t[1..], rest);
    } else {
      assert s[1..] == rest;
    }
  }

  /** Splitting tokens joined by any whitespace character gives the tokens back. */
  lemma {:induction false} SplitJoin(ts: seq<string>, sep: char)
    requires IsSpace(sep)
    requires forall i :: 0 <= i < |ts| ==> IsWord(ts[i])
    ensures Split(Join(ts, sep)) == ts
    decreases |ts|
  {
    if ts == [] {
    } else if |ts| == 1 {
      var t := ts[0];
      WordLenOfWord(t, []);
      assert t + [] == t;
      assert t[..|t|] == t;
      assert t[|t|..] == [];
    } else {
      var t := ts[0];
      var rest := [sep] + Join(ts[1..], sep);
      var s := Join(ts, sep);
      assert s == t + rest;
      WordLenOfWord(t, rest);
      assert s[..|t|] == t;
      assert s[|t|..] == rest;
      assert rest[1..] == Join(ts[1..], sep);
      SplitJoin(ts[1..], sep);
      assert Split(s) == [t] + Split(rest);
    }
  }

  /** A run of whitespace, possibly empty. */
  predicate IsBlank(w: string) {
    forall i :: 0 <= i < |w| ==> IsSpace(w[i])
  }

  /** Each token followed by its own run of whitespace. */
  function Spaced(ts: seq<string>, gaps: seq<string>): string
    requires |gaps| == |ts|
  {
    if ts == [] then "" else ts[0] + gaps[0] + Spaced(ts[1..], gaps[1..])
  }

  /** Leading whitespace yields no token. */
  lemma {:induction false} SplitBlank(w: string, s: string)
    requires IsBlank(w)
    ensures Split(w + s) == Split(s)
    decreases |w|
  {
    if w != [] {
      assert (w + s)[0] == w[0];
      assert (w + s)[1..] == w[1..] + s;
      SplitBlank(w[1..], s);
    } else {
      assert w + s == s;
    }
  }

  lemma {:induction false} SplitSpacedTokens(ts: seq<string>, gaps: seq<string>)
    requires |gaps| == |ts|
    requires forall i :: 0 <= i < |ts| ==> IsWord(ts[i]) && IsBlank(gaps[i])
    requires forall i :: 0 <= i < |ts| - 1 ==> gaps[i] != ""
    ensures Split(Spaced(ts, gaps)) == ts
    decreases |ts|
  {
    if ts != [] {
      var t, g := ts[0], gaps[0];
      var rest := Spaced(ts[1..], gaps[1..]);
      var after := g + rest;
      var s := Spaced(ts, gaps);
      assert s == t + after;
      if g == [] {
        assert |ts| == 1;
        assert after == [];
      } else {
        assert after[0] == g[0];
      }
      WordLenOfWord(t, after);
      assert s[0] == t[0];
      assert s[..|t|] == t;
      assert s[|t|..] == after;
      assert Split(s) == [t] + Split(after);
      SplitBlank(g, rest);
      SplitSpacedTokens(ts[1..], gaps[1..]);
    }
  }

  /** `str.split()` treats any run of whitespace as one separator and yields
      no token for leading or trailing whitespace: a line made of words
      separated by non-empty whitespace runs, with optional whitespace before
      the first and after the last, splits into exactly those words. */
  lemma SplitSpaced(lead: string, ts: seq<string>, gaps: seq<string>)
    requires IsBlank(lead)
    requires |gaps| == |ts|
    requires forall i :: 0 <= i < |ts| ==> IsWord(ts[i]) && IsBlank(gaps[i])
    requires forall i :: 0 <= i < |ts| - 1 ==> gaps[i] != ""
    ensures Split(lead + Spaced(ts, gaps)) == ts
  {
    SplitBlank(lead, Spaced(ts, gaps));
    SplitSpacedTokens(ts, gaps);
  }

  lemma {:induction false} NonSpaceAppend(a: string, b: string)
    ensures NonSpace(a + b) == NonSpace(a) + NonSpace(b)
    decreases |a|
  {
    if a == [] {
      assert a + b == b;
    } else {
      assert (a + b)[1..] == a[1..] + b;
      NonSpaceAppend(a[1..], b);
    }
  }

  lemma {:induction false} NonSpaceOfWord(t: string)
    requires forall i :: 0 <= i < |t| ==> !IsSpace(t[i])
    ensures NonSpace(t) == t
    decreases |t|
  {
    if t != [] {
      NonSpaceOfWord(t[1..]);
      assert t == [t[0]] + t[1..];
    }
  }

  /** No character other than whitespace is lost or reordered by `Split`. */
  lemma {:induction false} SplitKeepsNonSpace(s: string)
    ensures Concat(Split(s)) == NonSpace(s)
    decreases |s|
  {
    if s == [] {
    } else if IsSpace(s[0]) {
      SplitKeepsNonSpace(s[1..]);
    } else {
      var n := WordLen(s);
      assert s == s[..n] + s[n..];
      SplitKeepsNonSpace(s[n..]);
      NonSpaceAppend(s[..n], s[n..]);
      NonSpaceOfWord(s[..n]);
      assert Split(s) == [s[..n]] + Split(s[n..]);
      assert Concat(Split(s)) == s[..n] + Concat(Split(s[n..]));
    }
  }
}

=== FILE: units.dfy ===
/** Unit selection of `human_readable`: the byte count is divided by 1024
    once per unit until it drops below 1024, stopping at P. */
module Units {

  datatype Unit = B | K | M | G | T | P {
    /** Position in the list B, K, M, G, T, P. */
    function Index(): nat {
      match this
      case B => 0
      case K => 1
      case M => 2
      case G => 3
      case T => 4
      case P => 5
    }
  }

  /** The loop's units, in the order it tries them. */
  const Stepped: seq<Unit> := [B, K, M, G, T]

  function Pow1024(k: nat): (r: nat)
    ensures r >= 1
  {
    if k == 0 then 1 else 1024 * Pow1024(k - 1)
  }

  /** Dividing by a positive number keeps the order against a bound. */
  lemma DivBelow(x: real, p: real, c: real)
    requires p > 0.0
    ensures x / p < c <==> x < c * p
    ensures x / p >= c <==> x >= c * p
  {
    var q := x / p;
    assert q * p == x;
    assert c * p - q * p == (c - q) * p;
    if q < c {
      assert (c - q) * p > 0.0;
    } else {
      assert (q - c) * p >= 0.0;
      assert (q - c) * p == q * p - c * p;
    }
  }

  /** After `k` divisions the value is below 1024 exactly when the byte count
      is below 1024^(k+1). */
  lemma BelowNextPower(size: int, k: nat)
    ensures (size as real / Pow1024(k) as real < 1024.0) <==> size < Pow1024(k + 1)
  {
    var p := Pow1024(k) as real;
    assert Pow1024(k + 1) as real == 1024.0 * p;
    DivBelow(size as real, p, 1024.0);
  }

  lemma DivideOnceMore(size: int, k: nat)
    ensures size as real / Pow1024(k) as real / 1024.0 == size as real / Pow1024(k + 1) as real
  {
    assert Pow1024(k + 1) as real == Pow1024(k) as real * 1024.0;
  }

  /** `human_readable(size)` without the text rendering: the quotient shown
      and its unit. */
  method HumanReadable(size: int) returns (value: real, unit: Unit)
    ensures unit == B <==> size < 1024
    ensures value == size as real / Pow1024(unit.Index()) as real
    ensures forall j :: 1 <= j <= unit.Index() ==> size >= Pow1024(j)
    ensures unit != P ==> size < Pow1024(unit.Index() + 1)
    ensures unit != P ==> value < 1024.0
    ensures unit == P ==> value >= 1.0
    ensures size >= 0 ==> value >= 0.0
  {
    value := size as real;
    var i := 0;
    while i < |Stepped|
      invariant 0 <= i <= |Stepped|
      invariant value == size as real / Pow1024(i) as real
      invariant forall j :: 1 <= j <= i ==> size >= Pow1024(j)
    {
      BelowNextPower(size, i);
      DivBelow(size as real, Pow1024(i) as real, 0.0);
      if value < 1024.0 {
        assert Stepped[i].Index() == i;
        return value, Stepped[i];
      }
      DivideOnceMore(size, i);
      value := value / 1024.0;
      i := i + 1;
    }
    DivBelow(size as real, Pow1024(5) as real, 1.0);
    DivBelow(size as real, Pow1024(5) as real, 0.0);
    return value, P;
  }
}

=== FILE: wrappers.dfy ===
/** Failure-carrying result types shared by the modules of the model. */
module Wrappers {

  /** A value that may be absent: a skipped line, a missing total. */
  datatype Option<+T> = None | Some(value: T)

  /** The outcome of an operation that raises in `duim.py`. */
  datatype Result<+T, +E> = Ok(value: T) | Err(error: E)
}
